=== FILE: README.md ===
# Vertex Live relay: translation and relay decisions

A model of the connection handler of the Vertex AI Live proxy
(`server_vertex.js`). A game client (Unity) opens a WebSocket to the proxy.
For each connection the proxy does these steps:

1. It obtains an access token.
2. It POSTs a create-session request for the native-audio Gemini model.
3. It reads the session name from the JSON response.
4. It opens a WebSocket to the Live session.
5. It relays messages both ways. Client `text` and `audio` messages become
   `clientInput` turns. Upstream fragments whose `serverContent.modalities`
   include `"AUDIO"` go back to the client as `audio_chunk` messages. An
   upstream close becomes `{type: "end"}` and an upstream error becomes
   `{error: message}`.

The model has five modules:

- `JsValue` (`js_value.dfy`) defines JSON values and the JavaScript
  operators the handler uses on them: truthiness, `?.`, `||`, and
  `includes`. `includes` works on arrays, and on strings as a substring
  search. On any other value it throws.
- `Translator` (`translator.dfy`) holds the fixed configuration and the
  create-request body. It defines the upstream turn frames and the client
  replies, each with a decoder that inverts its encoder. It also holds the
  per-message rules for both directions.
- `SessionBroker` (`session_broker.dfy`) is the handshake. Each foreign call
  is an input: the token source, the create call with its body parsed or
  not, and the socket constructor. An input either returns a value or throws
  a message.
- `RelayLoop` (`relay_loop.dfy`) folds the handlers over the socket events
  of one connection.
- `Connection` (`connection.dfy`) combines the handshake and the relay into
  the transcript of one connection.

JSON.parse is not implemented. Each raw frame arrives already classified as
`Parsed(value)` or `ParseError`. JSON.stringify is modelled only where it
matters here: it drops properties whose value is `undefined`. So a `text`
message without a `text` field goes upstream as an empty part `{}`.

The model follows the code, including where the code lacks behaviour one
might expect of such a relay:

- A `ping` is not answered with a `pong`.
- Unparseable or unknown client messages are dropped silently, with no
  `error` reply.
- The error reply is `{error: message}`, with no `type` tag.
- A client disconnect has no handler, so the upstream stream is not closed.
- Client messages that arrive during the handshake have no listener and are
  lost. They are not buffered.
- The handler keeps no token of its own. Each connection asks the shared
  GoogleAuth object, whose caching is foreign code (see "## Left out").
- There is no draining phase and no backpressure.

## Model

| member | source | states |
|---|---|---|
| `JsValue.Truthy` | server_vertex.js:95 | no contract of its own; the truthiness that `||` tests at line 95 is stated through `SessionBroker.SessionNamePrefersNested` and `SessionBroker.SessionNameFallsBack` |
| `JsValue.Member` | server_vertex.js:95-157 | each property read (`session?.session?.name` at 95, `data.type`, `data.text`, `data.audioBase64` at 113-136, `serverContent?.modalities` at 155-157) as `v?.key`: yields a value exactly when `v` is an object that owns `key`, and then that property's value; undefined, null and every other value give undefined (a plain `.` on null throws instead: `data.type` at 113 is handled by `Translator.ClientFrames`, `parsed.serverContent` at 155 by `Translator.UpstreamReply`) |
| `JsValue.Includes` | server_vertex.js:157 | `?.includes(needle)` on undefined or null short-circuits to undefined; on an array it is whether some element equals the needle string; on a string it is whether the needle occurs at some position; on any other value it throws |
| `JsValue.Or` | server_vertex.js:95 | `a || b` is `a` when `a` is truthy and `b` otherwise, so the result is truthy iff either operand is |
| `JsValue.IsSubstringSpec` | server_vertex.js:157 | the substring scan used for `includes` on a string holds exactly when the needle occurs at some position |
| `Translator.ClientFrames` | server_vertex.js:109-149 | a client message yields at most one upstream frame, and exactly one iff it parsed as an object whose `type` is `"text"` or `"audio"` |
| `Translator.TextMessageBecomesTextTurn` | server_vertex.js:113-123 | a `text` message yields exactly `{clientInput:{turns:[{role:"user", parts:[{text}]}]}}` with the client's `text` value unchanged (absent if the client sent none) |
| `Translator.AudioMessageBecomesInlineData` | server_vertex.js:125-145 | an `audio` message yields exactly one turn whose single part is `inlineData` with `mimeType "audio/wav"` and `data` equal to the client's `audioBase64` value |
| `Translator.FrameRoundTrip` | server_vertex.js:113-145 | decoding the wire form of any upstream frame gives back that frame |
| `Translator.FrameWireFormatExact` | server_vertex.js:113-145 | any wire value the frame decoder accepts is exactly the encoding of the frame it decodes to |
| `Translator.ReplyRoundTrip` | server_vertex.js:158-177 | decoding the wire form of any client reply (`audio_chunk`, `end`, `error`) gives back that reply |
| `Translator.ReplyWireFormatExact` | server_vertex.js:158-177 | any wire value the reply decoder accepts is exactly the encoding of the reply it decodes to |
| `Translator.UpstreamForwardedIffAudio` | server_vertex.js:152-168 | an upstream message is forwarded iff it parses and its `serverContent.modalities` lists `"AUDIO"` (or is a string containing it), and then as `{type:"audio_chunk", data: serverContent}` with `serverContent` unmodified |
| `Translator.CreateRequestBody` | server_vertex.js:63-71 | the create body has exactly the fields `model` and `generationConfig`; `model` is the configured model path, `generationConfig.responseModalities` is `["AUDIO"]` and `generationConfig.audioConfig.voiceConfig.voiceName` is `"charlie"` |
| `Translator.EncodeFrame` | server_vertex.js:113-145 | no contract of its own; its wire shape is stated by `Translator.TextMessageBecomesTextTurn` and `Translator.AudioMessageBecomesInlineData`, and its injectivity by `Translator.FrameRoundTrip` |
| `Translator.EncodeReply` | server_vertex.js:158-177 | no contract of its own; its wire shapes are stated by `Translator.ReplyRoundTrip`, `Translator.ReplyWireFormatExact`, `RelayLoop.UpstreamCloseSendsEnd` and `RelayLoop.UpstreamErrorSendsMessage` |
| `Translator.UpstreamReply` | server_vertex.js:152-168 | anything forwarded is `audio_chunk` carrying the message's own `serverContent`, which is an object holding `modalities`; the exact condition is stated by `Translator.UpstreamForwardedIffAudio` |
| `SessionBroker.Authorization` | server_vertex.js:77 | the header is `Bearer ` followed by the token unchanged; the same value is sent on the stream open at line 101 (stated by `SessionBroker.Open`) |
| `SessionBroker.SessionName` | server_vertex.js:95 | a non-object response gives no name; any name chosen is truthy or else is the top-level `name` |
| `SessionBroker.SessionNamePrefersNested` | server_vertex.js:95 | a truthy `session.session.name` is the session name whatever the top-level `name` holds |
| `SessionBroker.SessionNameFallsBack` | server_vertex.js:95 | without a truthy nested name the session name is the top-level `name`, undefined when absent |
| `SessionBroker.Open` | server_vertex.js:56-102 | the stream is opened iff the token, the create call, the JSON parse and the socket constructor all succeed; then the requests are the create POST and the stream open, both with the same bearer token, and the stream uses the fallback session name; otherwise the reply is an error and no stream is opened, and once a token was obtained the only request is that one create POST |
| `SessionBroker.InvalidCreateResponseRejected` | server_vertex.js:84-93 | a non-JSON create response gives exactly the reply `Invalid model path or endpoint` after the create request alone |
| `SessionBroker.HandshakeExceptionReported` | server_vertex.js:180-183 | an exception from the token source, the create call or the socket constructor is replied with its own message and opens no stream |
| `RelayLoop.Handle` | server_vertex.js:104-178 | one event sends at most one message, and only to the side opposite its source: client events never reach the client, upstream events never reach upstream; an upstream close sends `end` |
| `RelayLoop.Run` | server_vertex.js:108-178 | no contract of its own; its bounds are stated by `RelayLoop.RunBounds`, its per-event structure by `RelayLoop.RunAppend`, and each direction by `RelayLoop.UpstreamDirectionIsClientPump` and `RelayLoop.ClientDirectionIsUpstreamPump` |
| `RelayLoop.RunBounds` | server_vertex.js:108-178 | a relay run sends at most one upstream frame per client message and at most one client reply per upstream-socket event |
| `RelayLoop.RunAppend` | server_vertex.js:108-178 | the relay's output over two consecutive event runs is the concatenation of the outputs of each, so later messages are handled whatever came before |
| `RelayLoop.UpstreamDirectionIsClientPump` | server_vertex.js:109-149 | the frames handed to `vertexWS.send` are the client messages translated one by one in arrival order; upstream events do not affect them |
| `RelayLoop.ClientDirectionIsUpstreamPump` | server_vertex.js:151-178 | the replies sent to the client are the upstream-socket events translated one by one in arrival order; client messages do not affect them |
| `RelayLoop.InterleavingIsIrrelevant` | server_vertex.js:108-178 | two interleavings of the same client and upstream event streams produce the same output on both sides |
| `RelayLoop.SilentEvents` | server_vertex.js:104-178 | an event sends nothing iff it is a client message that is not a parsed `text`/`audio` object, an upstream message without the audio modality, the upstream `open`, or a client disconnect |
| `RelayLoop.EventInContext` | server_vertex.js:108-178 | one event inside a trace adds exactly its own output at its own position in each direction |
| `RelayLoop.SilentEventIsInvisible` | server_vertex.js:146-148 | a message that sends nothing leaves the rest of the session exactly as if it had not arrived |
| `RelayLoop.UpstreamCloseSendsEnd` | server_vertex.js:170-173 | an upstream close adds exactly one `{type:"end"}` to the client's stream at its position and nothing upstream |
| `RelayLoop.UpstreamErrorSendsMessage` | server_vertex.js:175-178 | an upstream error adds exactly one `{error: message}` to the client's stream at its position and nothing upstream |
| `Connection.Connect` | server_vertex.js:53-184 | a connection issues exactly the handshake's requests and opens the stream iff the handshake succeeds; if not, the client gets exactly one error and nothing goes upstream whatever the client sends; never more upstream frames than client messages |
| `Connection.InvalidCreateResponseNeverRelays` | server_vertex.js:84-93 | with a non-JSON create response the whole connection is one create request, one `{error:"Invalid model path or endpoint"}` and no upstream frame, for any later events |
| `Connection.HandshakeExceptionSingleReply` | server_vertex.js:180-183 | a handshake exception gives exactly one `{error: message}` to the client, no stream and no upstream frame |
| `Connection.EstablishedConnectionRelays` | server_vertex.js:108-178 | after a successful handshake the upstream and client streams are the two per-direction pumps over the connection's events |
| `Connection.TextThenAudioScenario` | server_vertex.js:95-164 | a `hello` text turn plus an audio fragment yields one text frame upstream and the fragment unchanged as one `audio_chunk`, and nothing else |
| `Connection.PingIsIgnored` | server_vertex.js:109-148 | a `ping` message changes nothing on either side |

## Left out

- `server.js` is not part of this model. It is a bootstrap that answers every message with a fixed `ack` and holds no logic.
- The Express root route, port binding and WebSocket server setup (server_vertex.js:40-51) are I/O plumbing.
- Writing the key file and acquiring the token through GoogleAuth (server_vertex.js:23-38) are filesystem and foreign-library work. The token is an input string, or the message it threw. The GoogleAuth object is created once and shared by every connection, and it reuses an unexpired token. That caching is foreign code and is not modelled.
- The `fetch` to the create endpoint and the construction of the upstream socket (server_vertex.js:74-81, 99-106) are network I/O. Only their outcomes are inputs: the body as JSON.parse classified it, and whether either call threw.
- JSON.parse and JSON.stringify are library code. Objects are unordered maps, so key order in the output is not modelled. Numbers are reals: the handler inspects numbers only for truthiness and passes them through otherwise. Non-finite values that JSON.parse can return (`1e400` parses to `Infinity`, which JSON.stringify writes back as `null`) are not modelled.
- Strings are sequences of Unicode scalar values, so a lone UTF-16 surrogate that JSON.parse can put in a JavaScript string (in `text`, `audioBase64`, `serverContent` or the session name) is not modelled. No decision depends on it: the strings compared (`text`, `audio`, `AUDIO`) are ASCII.
- The stream address is ``wss://us-central1-aiplatform.googleapis.com/v1beta/${sessionName}``. JavaScript's string conversion of the name is not modelled. The open request carries the session-name value itself.
- Socket readiness is not modelled. This covers a send before the upstream socket is open (the `ws` library throws and the handler's `catch` logs it) and a send after it has closed. These depend on event-loop scheduling.
- Console logging is not modelled.
- Property access assumes that the keys read (`type`, `text`, `audioBase64`, `serverContent`, `modalities`, `session`, `name`) are not inherited prototype properties.

=== FILE: connection.dfy ===
/** One client connection from accept to the last event: the handshake,
    then, only if it succeeded, the relay. Events are those the sockets
    deliver after the relay's handlers are registered; a client message that
    arrives while the handshake is still running has no listener and is
    lost, so it is not among them. */
module Connection {
  import opened JsValue
  import opened Translator
  import opened SessionBroker
  import opened RelayLoop

  /** Everything one connection sends: the handshake's outbound requests,
      the messages to the client and the frames to the upstream stream. */
  datatype Transcript = Transcript(
    requests: seq<Request>,
    toClient: seq<ClientReply>,
    toUpstream: seq<UpstreamFrame>)

  predicate OpensStream(t: Transcript) {
    exists i :: 0 <= i < |t.requests| && t.requests[i].OpenStream?
  }

  /** A failed handshake sends its one reply and registers no handler, so
      the connection's later events go unanswered. */
  function Connect(h: HandshakeInputs, events: seq<Event>): (t: Transcript)
    ensures t.requests == Open(h).requests
    ensures OpensStream(t) <==> Open(h).Established?
    ensures !OpensStream(t) ==> |t.toClient| == 1 && t.toClient[0].Error? && t.toUpstream == []
    ensures |t.toUpstream| <= |ClientMessages(events)|
  {
    match Open(h)
    case Rejected(requests, reply) => Transcript(requests, [reply], [])
    case Established(requests, _) =>
      assert requests[1].OpenStream?;
      RunBounds(events);
      var out := Run(events);
      Transcript(requests, out.toClient, out.toUpstream)
  }

  /** A create response that is not JSON: the client gets exactly
      `{error: "Invalid model path or endpoint"}`, no stream is opened and no
      client message is ever forwarded, whatever the client sends. */
  lemma InvalidCreateResponseNeverRelays(h: HandshakeInputs, events: seq<Event>)
    requires h.token.Ok? && h.createResponse == Ok(ParseError)
    ensures Connect(h, events) == Transcript(
      [CreateSession(CreateUrl, Authorization(h.token.value), CreateRequestBody())],
      [Error(InvalidEndpointMessage)],
      [])
    ensures EncodeReply(Connect(h, events).toClient[0]) ==
      JObj(map["error" := JStr("Invalid model path or endpoint")])
  {
  }

  /** Any exception during the handshake: one `{error: message}` to the
      client, nothing upstream. */
  lemma HandshakeExceptionSingleReply(h: HandshakeInputs, events: seq<Event>, message: string)
    requires h.token == Err(message)
          || (h.token.Ok? && h.createResponse == Err(message))
          || (h.token.Ok? && h.createResponse.Ok? && h.createResponse.value.Parsed? && h.dial == Err(message))
    ensures Connect(h, events).toClient == [Error(message)]
    ensures Connect(h, events).toUpstream == []
    ensures !OpensStream(Connect(h, events))
  {
  }

  /** After a successful handshake each direction is its own pump: the
      upstream receives the translated client messages in order, the client
      the translated upstream events in order. */
  lemma EstablishedConnectionRelays(h: HandshakeInputs, events: seq<Event>)
    requires Open(h).Established?
    ensures Connect(h, events).toUpstream == ClientPump(ClientMessages(events))
    ensures Connect(h, events).toClient == UpstreamPump(UpstreamEvents(events))
  {
    UpstreamDirectionIsClientPump(events);
    ClientDirectionIsUpstreamPump(events);
  }

  /** A text turn, a create response with a top-level name and an audio
      fragment from upstream: one text frame goes up, one audio chunk with
      the fragment unchanged comes back, and nothing else is sent. */
  lemma TextThenAudioScenario()
    ensures var fragment := JObj(map["modalities" := JArr([JStr("AUDIO")]), "data" := JStr("Qk...")]);
      var h := HandshakeInputs(Ok("tok"), Ok(Parsed(JObj(map["name" := JStr("sessions/abc")]))), Ok(()));
      var events := [
        UpstreamOpened,
        ClientMessage(Parsed(JObj(map["type" := JStr("text"), "text" := JStr("hello")]))),
        UpstreamMessage(Parsed(JObj(map["serverContent" := fragment])))];
      Connect(h, events) == Transcript(
        [CreateSession(CreateUrl, "Bearer tok", CreateRequestBody()),
         OpenStream(Some(JStr("sessions/abc")), "Bearer tok")],
        [AudioChunk(fragment)],
        [TextTurn(Some(JStr("hello")))])
  {
    var fragment := JObj(map["modalities" := JArr([JStr("AUDIO")]), "data" := JStr("Qk...")]);
    var h := HandshakeInputs(Ok("tok"), Ok(Parsed(JObj(map["name" := JStr("sessions/abc")]))), Ok(()));
    var m := ClientMessage(Parsed(JObj(map["type" := JStr("text"), "text" := JStr("hello")])));
    var u := UpstreamMessage(Parsed(JObj(map["serverContent" := fragment])));
    assert JStr("AUDIO") in fragment.fields["modalities"].items;
    assert Handle(u) == Output([AudioChunk(fragment)], []);
    assert Handle(m) == Output([], [TextTurn(Some(JStr("hello")))]);
    assert [UpstreamOpened, m, u][1..] == [m, u];
    assert [m, u][1..] == [u];
    assert [u][1..] == [];
    assert Run([u]) == Output([AudioChunk(fragment)], []);
    assert Run([m, u]) == Output([AudioChunk(fragment)], [TextTurn(Some(JStr("hello")))]);
    assert Run([UpstreamOpened, m, u]) == Run([m, u]);
    assert SessionName(JObj(map["name" := JStr("sessions/abc")])) == Some(JStr("sessions/abc"));
    assert Authorization("tok") == "Bearer tok";
  }

  /** A `ping` is neither `text` nor `audio`: it gets no answer and touches
      nothing upstream. */
  lemma PingIsIgnored(h: HandshakeInputs, before: seq<Event>, after: seq<Event>)
    ensures Connect(h, before + [ClientMessage(Parsed(JObj(map["type" := JStr("ping")])))] + after)
         == Connect(h, before + after)
  {
    var ping := ClientMessage(Parsed(JObj(map["type" := JStr("ping")])));
    assert Handle(ping) == Silence;
    SilentEventIsInvisible(before, ping, after);
  }
}

=== FILE: js_value.dfy ===
/** JavaScript values as the relay handler sees them: what JSON.parse returns,
    the `undefined` that a missing property reads as, and the handful of
    operators the handler applies to them (truthiness, optional chaining,
    `||` and `includes`). JSON.parse itself is not modelled: its outcome is
    an input of type `Parsed`. */
module JsValue {

  /** `undefined` is None; a property that holds a value is Some. */
  datatype Option<+T> = None | Some(value: T)

  /** A value, or the `message` of the exception thrown instead of it. */
  datatype Result<+T> = Ok(value: T) | Err(message: string)

  /** Completion of an expression evaluated inside a handler whose `catch`
      only logs: either a value or an exception nobody sees. */
  datatype Completion<+T> = Normal(value: T) | Throws

  /** A value produced by JSON.parse. Numbers are JavaScript doubles; the
      handler inspects them only for truthiness and otherwise passes them
      through, so a real stands for a finite one. */
  datatype Json =
    | JNull
    | JBool(b: bool)
    | JNum(n: real)
    | JStr(s: string)
    | JArr(items: seq<Json>)
    | JObj(fields: map<string, Json>)

  /** Outcome of JSON.parse on one raw frame. */
  datatype Parsed = Parsed(value: Json) | ParseError

  /** JavaScript truthiness: undefined, null, false, 0, -0 and "" are falsy
      (NaN never comes out of JSON.parse). */
  predicate Truthy(v: Option<Json>) {
    match v
    case None => false
    case Some(JNull) => false
    case Some(JBool(b)) => b
    case Some(JNum(n)) => n != 0.0
    case Some(JStr(s)) => s != ""
    case Some(_) => true
  }

  /** `v?.key`, for a key that no built-in prototype defines: only an object
      that owns the key yields a value; undefined and null short-circuit. */
  function Member(v: Option<Json>, key: string): (r: Option<Json>)
    ensures r.Some? ==> v.Some? && v.value.JObj? && key in v.value.fields && r.value == v.value.fields[key]
    ensures v.Some? && v.value.JObj? && key in v.value.fields ==> r.Some?
  {
    if v.Some? && v.value.JObj? && key in v.value.fields then Some(v.value.fields[key]) else None
  }

  /** `a || b` */
  function Or(a: Option<Json>, b: Option<Json>): (r: Option<Json>)
    ensures r == a || r == b
    ensures Truthy(r) <==> Truthy(a) || Truthy(b)
    ensures Truthy(a) ==> r == a
    ensures !Truthy(a) ==> r == b
  {
    if Truthy(a) then a else b
  }

  /** `v?.includes(needle)` for a string needle. An array compares its
      elements with the needle, a string searches for it as a substring,
      undefined and null short-circuit to undefined, and every other value
      has no callable `includes`, so the call throws a TypeError. */
  function Includes(v: Option<Json>, needle: string): (r: Completion<Option<bool>>)
    ensures r.Normal? && r.value.Some? ==> v.Some?
    ensures v.None? || v == Some(JNull) ==> r == Normal(None)
    ensures v.Some? && v.value.JArr? ==>
      r == Normal(Some(exists i :: 0 <= i < |v.value.items| && v.value.items[i] == JStr(needle)))
    ensures v.Some? && v.value.JStr? ==>
      r == Normal(Some(exists k :: OccursAt(needle, v.value.s, k)))
    ensures v.Some? && !(v.value.JNull? || v.value.JArr? || v.value.JStr?) ==> r == Throws
  {
    match v
    case None => Normal(None)
    case Some(JNull) => Normal(None)
    case Some(JArr(items)) => Normal(Some(JStr(needle) in items))
    case Some(JStr(s)) =>
      IsSubstringSpec(needle, s);
      Normal(Some(IsSubstring(needle, s)))
    case Some(_) => Throws
  }

  /** `p` occurs in `s` starting at index `i`. */
  predicate OccursAt(p: string, s: string, i: int) {
    0 <= i && i + |p| <= |s| && s[i..i + |p|] == p
  }

  /** String.prototype.includes: `p` occurs somewhere in `s`. */
  function IsSubstring(p: string, s: string): bool
    decreases |s|
  {
    if |s| < |p| then false
    else if s[..|p|] == p then true
    else IsSubstring(p, s[1..])
  }

  /** The scan agrees with the positional definition of an occurrence. */
  lemma {:induction false} IsSubstringSpec(p: string, s: string)
    ensures IsSubstring(p, s) <==> exists i :: OccursAt(p, s, i)
    decreases |s|
  {
    if |s| < |p| {
      forall i | OccursAt(p, s, i) ensures false { }
    } else if s[..|p|] == p {
      assert OccursAt(p, s, 0);
    } else {
      IsSubstringSpec(p, s[1..]);
      forall i | OccursAt(p, s[1..], i) ensures OccursAt(p, s, i + 1) {
        assert s[1..][i..i + |p|] == s[i + 1..i + 1 + |p|];
      }
      forall i | OccursAt(p, s, i) ensures OccursAt(p, s[1..], i - 1) {
        assert i != 0;
        assert s[1..][i - 1..i - 1 + |p|] == s[i..i + |p|];
      }
    }
  }
}

=== FILE: relay_loop.dfy ===
/** The relay once the handshake has succeeded: the handlers registered on
    the client and upstream sockets, applied to the events of one connection
    in the order they fire. Each event is handled on its own; what it sends
    is appended to the client-bound or the upstream-bound output. */
module RelayLoop {
  import opened JsValue
  import opened Translator

  /** An event one of the connection's sockets delivers after the handlers
      are registered. */
  datatype Event =
    | ClientMessage(raw: Parsed)
    | UpstreamOpened
    | UpstreamMessage(raw: Parsed)
    | UpstreamClosed
    | UpstreamFailed(message: string)
    | ClientClosed

  predicate IsUpstreamEvent(e: Event) {
    e.UpstreamOpened? || e.UpstreamMessage? || e.UpstreamClosed? || e.UpstreamFailed?
  }

  /** What the relay sends, per direction, in order. */
  datatype Output = Output(toClient: seq<ClientReply>, toUpstream: seq<UpstreamFrame>)

  function Then(a: Output, b: Output): Output {
    Output(a.toClient + b.toClient, a.toUpstream + b.toUpstream)
  }

  const Silence := Output([], [])

  /** The reply to the client for one upstream-socket event: a forwarded
      audio fragment, `end` on close, the error's message on error. The
      `open` handler only logs. */
  function UpstreamEventReplies(e: Event): seq<ClientReply>
    requires IsUpstreamEvent(e)
  {
    match e
    case UpstreamMessage(p) => if UpstreamReply(p).Some? then [UpstreamReply(p).value] else []
    case UpstreamClosed => [End]
    case UpstreamFailed(m) => [Error(m)]
    case UpstreamOpened => []
  }

  /** The effect of one event. A client disconnect has no handler: the
      upstream socket is left as it is. */
  function Handle(e: Event): (r: Output)
    ensures |r.toClient| + |r.toUpstream| <= 1
    ensures e.ClientMessage? || e.ClientClosed? ==> r.toClient == []
    ensures IsUpstreamEvent(e) ==> r.toUpstream == []
    ensures e.UpstreamClosed? ==> r.toClient == [End]
  {
    match e
    case ClientMessage(p) => Output([], ClientFrames(p))
    case ClientClosed => Silence
    case _ => Output(UpstreamEventReplies(e), [])
  }

  /** The client messages among the events, in arrival order. */
  function ClientMessages(events: seq<Event>): seq<Parsed> {
    if events == [] then []
    else (if events[0].ClientMessage? then [events[0].raw] else []) + ClientMessages(events[1..])
  }

  /** The upstream-socket events among the events, in arrival order. */
  function UpstreamEvents(events: seq<Event>): (r: seq<Event>)
    ensures forall i :: 0 <= i < |r| ==> IsUpstreamEvent(r[i])
  {
    if events == [] then []
    else (if IsUpstreamEvent(events[0]) then [events[0]] else []) + UpstreamEvents(events[1..])
  }

  /** Client-to-upstream direction on its own: each client message translated
      in turn. */
  function ClientPump(messages: seq<Parsed>): seq<UpstreamFrame> {
    if messages == [] then [] else ClientFrames(messages[0]) + ClientPump(messages[1..])
  }

  /** Upstream-to-client direction on its own. */
  function UpstreamPump(events: seq<Event>): seq<ClientReply>
    requires forall i :: 0 <= i < |events| ==> IsUpstreamEvent(events[i])
  {
    if events == [] then [] else UpstreamEventReplies(events[0]) + UpstreamPump(events[1..])
  }

  /** The relay over a sequence of events, handled one at a time. */
  function Run(events: seq<Event>): Output {
    if events == [] then Silence
    else Then(Handle(events[0]), Run(events[1..]))
  }

  /** Every upstream frame answers a client message and every client reply
      answers an upstream-socket event, at most one each. */
  lemma {:induction false} RunBounds(events: seq<Event>)
    ensures |Run(events).toUpstream| <= |ClientMessages(events)|
    ensures |Run(events).toClient| <= |UpstreamEvents(events)|
    decreases |events|
  {
    if events != [] {
      RunBounds(events[1..]);
    }
  }

  lemma ThenAssociative(x: Output, y: Output, z: Output)
    ensures Then(Then(x, y), z) == Then(x, Then(y, z))
  {
  }

  /** Handling is per event: the output of a concatenation is the
      concatenation of the outputs, so later events are handled whatever
      came before. */
  lemma {:induction false} RunAppend(a: seq<Event>, b: seq<Event>)
    ensures Run(a + b) == Then(Run(a), Run(b))
    decreases |a|
  {
    if a == [] {
      assert a + b == b;
      assert Run(a) == Silence;
      assert Then(Silence, Run(b)).toClient == [] + Run(b).toClient;
      assert Then(Silence, Run(b)).toUpstream == [] + Run(b).toUpstream;
    } else {
      var ab := a + b;
      assert ab[0] == a[0];
      assert ab[1..] == a[1..] + b;
      calc {
        Run(ab);
        Then(Handle(a[0]), Run(a[1..] + b));
        { RunAppend(a[1..], b); }
        Then(Handle(a[0]), Then(Run(a[1..]), Run(b)));
        { ThenAssociative(Handle(a[0]), Run(a[1..]), Run(b)); }
        Then(Then(Handle(a[0]), Run(a[1..])), Run(b));
        Then(Run(a), Run(b));
      }
    }
  }

  /** The frames handed to `vertexWS.send` depend only on the client
      messages, in their order; upstream events never add, drop or reorder
      them. Whether the socket then accepts a frame is not modelled. */
  lemma {:induction false} UpstreamDirectionIsClientPump(events: seq<Event>)
    ensures Run(events).toUpstream == ClientPump(ClientMessages(events))
    decreases |events|
  {
    if events != [] {
      UpstreamDirectionIsClientPump(events[1..]);
      if events[0].ClientMessage? {
        assert ClientMessages(events) == [events[0].raw] + ClientMessages(events[1..]);
        assert ([events[0].raw] + ClientMessages(events[1..]))[1..] == ClientMessages(events[1..]);
      } else {
        assert ClientMessages(events) == ClientMessages(events[1..]);
      }
    }
  }

  /** What goes to the client depends only on the upstream-socket events, in
      their order; client messages never add, drop or reorder replies. */
  lemma {:induction false} ClientDirectionIsUpstreamPump(events: seq<Event>)
    ensures Run(events).toClient == UpstreamPump(UpstreamEvents(events))
    decreases |events|
  {
    if events != [] {
      ClientDirectionIsUpstreamPump(events[1..]);
      if IsUpstreamEvent(events[0]) {
        assert UpstreamEvents(events) == [events[0]] + UpstreamEvents(events[1..]);
        assert ([events[0]] + UpstreamEvents(events[1..]))[1..] == UpstreamEvents(events[1..]);
      } else {
        assert UpstreamEvents(events) == UpstreamEvents(events[1..]);
      }
    }
  }

  /** Two interleavings of the same two event streams hand the same frames
      to `vertexWS.send` and the same replies to the client. */
  lemma InterleavingIsIrrelevant(a: seq<Event>, b: seq<Event>)
    requires ClientMessages(a) == ClientMessages(b)
    requires UpstreamEvents(a) == UpstreamEvents(b)
    ensures Run(a) == Run(b)
  {
    UpstreamDirectionIsClientPump(a);
    UpstreamDirectionIsClientPump(b);
    ClientDirectionIsUpstreamPump(a);
    ClientDirectionIsUpstreamPump(b);
  }

  /** The events that send nothing: a client message that is not JSON or is
      neither `text` nor `audio`, an upstream message without the audio
      modality, the upstream `open`, and a client disconnect. */
  lemma SilentEvents(e: Event)
    ensures Handle(e) == Silence <==>
      || (e.ClientMessage? && !(e.raw.Parsed? && e.raw.value.JObj? && "type" in e.raw.value.fields
                                && e.raw.value.fields["type"] in {JStr("text"), JStr("audio")}))
      || (e.UpstreamMessage? && !(e.raw.Parsed? && CarriesAudio(e.raw.value)))
      || e.UpstreamOpened?
      || e.ClientClosed?
  {
    if e.UpstreamMessage? {
      UpstreamForwardedIffAudio(e.raw);
    }
  }

  /** One event inside a trace contributes exactly its own output, at its
      own position in each direction. */
  lemma EventInContext(before: seq<Event>, e: Event, after: seq<Event>)
    ensures Run(before + [e] + after) == Then(Then(Run(before), Handle(e)), Run(after))
  {
    RunAppend(before + [e], after);
    RunAppend(before, [e]);
    RunOne(e);
  }

  lemma RunOne(e: Event)
    ensures Run([e]) == Handle(e)
  {
  }

  /** An event that sends nothing leaves no trace: the session goes on and
      every later event is handled exactly as if it had not arrived. */
  lemma SilentEventIsInvisible(before: seq<Event>, e: Event, after: seq<Event>)
    requires Handle(e) == Silence
    ensures Run(before + [e] + after) == Run(before + after)
  {
    EventInContext(before, e, after);
    RunAppend(before, after);
    assert Run(before).toClient + [] == Run(before).toClient;
    assert Run(before).toUpstream + [] == Run(before).toUpstream;
  }

  /** Wherever the upstream close arrives, the client gets exactly one `end`
      at that point of its stream, and nothing changes upstream. */
  lemma UpstreamCloseSendsEnd(before: seq<Event>, after: seq<Event>)
    ensures Run(before + [UpstreamClosed] + after).toClient == Run(before).toClient + [End] + Run(after).toClient
    ensures Run(before + [UpstreamClosed] + after).toUpstream == Run(before).toUpstream + Run(after).toUpstream
    ensures EncodeReply(End) == JObj(map["type" := JStr("end")])
  {
    EventInContext(before, UpstreamClosed, after);
    assert Handle(UpstreamClosed) == Output([End], []);
    assert Run(before).toUpstream + [] == Run(before).toUpstream;
  }

  /** Wherever an upstream error arrives, the client gets exactly
      `{error: message}` at that point of its stream, and nothing changes
      upstream. */
  lemma UpstreamErrorSendsMessage(before: seq<Event>, message: string, after: seq<Event>)
    ensures Run(before + [UpstreamFailed(message)] + after).toClient ==
      Run(before).toClient + [Error(message)] + Run(after).toClient
    ensures Run(before + [UpstreamFailed(message)] + after).toUpstream ==
      Run(before).toUpstream + Run(after).toUpstream
    ensures EncodeReply(Error(message)) == JObj(map["error" := JStr(message)])
  {
    EventInContext(before, UpstreamFailed(message), after);
    assert Handle(UpstreamFailed(message)) == Output([Error(message)], []);
    assert Run(before).toUpstream + [] == Run(before).toUpstream;
  }
}

=== FILE: session_broker.dfy ===
/** The handshake run once per client connection: obtain a token, POST the
    create-session request, parse its body, pick the session name and open
    the upstream stream. Token acquisition, the HTTP call and the socket
    constructor are foreign code; what each of them returned or threw is an
    input. */
module SessionBroker {
  import opened JsValue
  import opened Translator

  /** An outbound request the handshake issues. */
  datatype Request =
    | CreateSession(url: string, authorization: string, body: Json)
    | OpenStream(sessionName: Option<Json>, authorization: string)

  /** What the foreign calls of the handshake produced:
      the access token (or the message of what it threw), the create
      response body as JSON.parse saw it (or the message of the exception
      thrown by the fetch or by reading the body), and whether the upstream
      socket constructor threw. */
  datatype HandshakeInputs = HandshakeInputs(
    token: Result<string>,
    createResponse: Result<Parsed>,
    dial: Result<()>)

  /** The requests issued, and either an open upstream stream addressed by
      the session name or the one reply sent to the client instead. */
  datatype Handshake =
    | Established(requests: seq<Request>, sessionName: Option<Json>)
    | Rejected(requests: seq<Request>, reply: ClientReply)

  /** The `Authorization` header value: the scheme, then the token intact. */
  function Authorization(token: string): (r: string)
    ensures |r| == |"Bearer "| + |token|
    ensures r[..7] == "Bearer " && r[7..] == token
  {
    "Bearer " + token
  }

  /** `session?.session?.name || session?.name` */
  function SessionName(session: Json): (r: Option<Json>)
    ensures !session.JObj? ==> r == None
    ensures r.Some? ==> Truthy(r) || (session.JObj? && "name" in session.fields && r.value == session.fields["name"])
  {
    Or(Member(Member(Some(session), "session"), "name"), Member(Some(session), "name"))
  }

  /** A truthy nested `session.name` wins, whatever the top-level `name` is. */
  lemma SessionNamePrefersNested(outer: map<string, Json>, inner: map<string, Json>)
    requires "name" in inner && Truthy(Some(inner["name"]))
    ensures SessionName(JObj(outer["session" := JObj(inner)])) == Some(inner["name"])
  {
  }

  /** Without a truthy nested name, the top-level `name` is used, undefined
      when absent (the handler goes on with an undefined name). */
  lemma SessionNameFallsBack(session: map<string, Json>)
    requires "session" in session && session["session"].JObj? && "name" in session["session"].fields
             ==> !Truthy(Some(session["session"].fields["name"]))
    ensures SessionName(JObj(session)) == (if "name" in session then Some(session["name"]) else None)
  {
  }

  /** The handshake. Every exception it meets becomes one `{error: message}`
      reply; a create response that is not JSON becomes the fixed
      invalid-endpoint reply; only when all steps succeed is a stream opened,
      with the same bearer token as the create call. */
  function Open(h: HandshakeInputs): (r: Handshake)
    ensures r.Established? <==>
      h.token.Ok? && h.createResponse.Ok? && h.createResponse.value.Parsed? && h.dial.Ok?
    ensures r.Rejected? ==> r.reply.Error?
    ensures r.Rejected? ==> forall i :: 0 <= i < |r.requests| ==> r.requests[i].CreateSession?
    ensures r.Established? ==>
      && |r.requests| == 2
      && r.requests[0] == CreateSession(CreateUrl, Authorization(h.token.value), CreateRequestBody())
      && r.requests[1] == OpenStream(r.sessionName, Authorization(h.token.value))
      && r.sessionName == SessionName(h.createResponse.value.value)
    ensures h.token.Err? ==> r == Rejected([], Error(h.token.message))
    ensures h.token.Ok? ==> |r.requests| >= 1 && r.requests[0].CreateSession?
    ensures h.token.Ok? && r.Rejected? ==>
      r.requests == [CreateSession(CreateUrl, Authorization(h.token.value), CreateRequestBody())]
  {
    match h.token
    case Err(m) => Rejected([], Error(m))
    case Ok(token) =>
      var create := CreateSession(CreateUrl, Authorization(token), CreateRequestBody());
      match h.createResponse
      case Err(m) => Rejected([create], Error(m))
      case Ok(ParseError) => Rejected([create], Error(InvalidEndpointMessage))
      case Ok(Parsed(session)) =>
        var name := SessionName(session);
        match h.dial
        case Err(m) => Rejected([create], Error(m))
        case Ok(_) => Established([create, OpenStream(name, Authorization(token))], name)
  }

  /** A create response that is not JSON: the create request was the only
      request, no stream is opened, and the client gets the fixed message. */
  lemma InvalidCreateResponseRejected(h: HandshakeInputs)
    requires h.token.Ok? && h.createResponse == Ok(ParseError)
    ensures Open(h) == Rejected(
      [CreateSession(CreateUrl, Authorization(h.token.value), CreateRequestBody())],
      Error("Invalid model path or endpoint"))
  {
  }

  /** An exception from the token source, the create call or the socket
      constructor is reported with its own message and opens no stream. */
  lemma HandshakeExceptionReported(h: HandshakeInputs, message: string)
    requires h.token == Err(message)
          || (h.token.Ok? && h.createResponse == Err(message))
          || (h.token.Ok? && h.createResponse.Ok? && h.createResponse.value.Parsed? && h.dial == Err(message))
    ensures Open(h).Rejected? && Open(h).reply == Error(message)
  {
  }
}

=== FILE: translator.dfy ===
/** The message translation rules of the connection handler: the fixed
    create-session request, the upstream turn frames built from client
    messages, the replies sent back to the client, and the per-message
    rules that decide what (if anything) is sent. Wire values are `Json`
    trees; JSON.stringify is modelled only in that it drops properties whose
    value is undefined. */
module Translator {
  import opened JsValue

  const ProjectId := "gemini-live-477912"
  const Location := "us-central1"
  const Model := "projects/" + ProjectId + "/locations/" + Location
                 + "/models/gemini-2.5-flash-native-audio-preview-09-2025"
  /** Host and version prefix of the create call. */
  const ApiRoot := Location + "-aiplatform.googleapis.com/v1beta/"
  const CreateUrl := "https://" + ApiRoot + Model + "/liveSessions"
  const AudioModality := "AUDIO"
  const AudioMimeType := "audio/wav"
  const VoiceName := "charlie"
  const InvalidEndpointMessage := "Invalid model path or endpoint"

  /** The create-session request body: model, requested audio responses and
      voice, read back through the property paths the upstream service sees. */
  function CreateRequestBody(): (body: Json)
    ensures body.JObj? && body.fields.Keys == {"model", "generationConfig"}
    ensures Member(Some(body), "model") == Some(JStr(Model))
    ensures ResponseModalities(body) == Some(JArr([JStr("AUDIO")]))
    ensures Member(Member(Member(Member(Some(body), "generationConfig"), "audioConfig"), "voiceConfig"), "voiceName")
            == Some(JStr("charlie"))
  {
    JObj(map[
      "model" := JStr(Model),
      "generationConfig" := JObj(map[
        "responseModalities" := JArr([JStr(AudioModality)]),
        "audioConfig" := JObj(map[
          "voiceConfig" := JObj(map["voiceName" := JStr(VoiceName)])])])])
  }

  /** `body.generationConfig.responseModalities` */
  function ResponseModalities(body: Json): Option<Json> {
    Member(Member(Some(body), "generationConfig"), "responseModalities")
  }

  /** One user turn sent upstream. The payload is whatever the client put in
      `text` or `audioBase64`, possibly undefined; it is never inspected. */
  datatype UpstreamFrame = TextTurn(text: Option<Json>) | AudioTurn(audioBase64: Option<Json>)

  /** A message the relay sends to the client. */
  datatype ClientReply = AudioChunk(data: Json) | End | Error(message: string)

  /** An object property as JSON.stringify writes it: absent when undefined. */
  function Defined(key: string, v: Option<Json>): map<string, Json> {
    if v.Some? then map[key := v.value] else map[]
  }

  function EncodePart(f: UpstreamFrame): Json {
    match f
    case TextTurn(t) => JObj(Defined("text", t))
    case AudioTurn(d) =>
      JObj(map["inlineData" := JObj(map["mimeType" := JStr(AudioMimeType)] + Defined("data", d))])
  }

  /** `{clientInput: {turns: [{role: "user", parts: [part]}]}}` */
  function EncodeFrame(f: UpstreamFrame): Json {
    JObj(map["clientInput" := JObj(map["turns" := JArr([
      JObj(map["role" := JStr("user"), "parts" := JArr([EncodePart(f)])])])])])
  }

  function DecodePart(j: Json): Option<UpstreamFrame> {
    if !j.JObj? then None
    else if j.fields.Keys == {} then Some(TextTurn(None))
    else if j.fields.Keys == {"text"} then Some(TextTurn(Some(j.fields["text"])))
    else if j.fields.Keys == {"inlineData"} then
      var d := j.fields["inlineData"];
      if !d.JObj? || "mimeType" !in d.fields || d.fields["mimeType"] != JStr(AudioMimeType) then None
      else if d.fields.Keys == {"mimeType"} then Some(AudioTurn(None))
      else if d.fields.Keys == {"mimeType", "data"} then Some(AudioTurn(Some(d.fields["data"])))
      else None
    else None
  }

  /** Reads a wire value back as a frame, accepting exactly the shapes
      `EncodeFrame` writes. */
  function DecodeFrame(j: Json): Option<UpstreamFrame> {
    if !j.JObj? || j.fields.Keys != {"clientInput"} then None
    else
      var input := j.fields["clientInput"];
      if !input.JObj? || input.fields.Keys != {"turns"} then None
      else
        var turns := input.fields["turns"];
        if !turns.JArr? || |turns.items| != 1 then None
        else
          var turn := turns.items[0];
          if !turn.JObj? || turn.fields.Keys != {"role", "parts"} || turn.fields["role"] != JStr("user") then None
          else
            var parts := turn.fields["parts"];
            if !parts.JArr? || |parts.items| != 1 then None
            else DecodePart(parts.items[0])
  }

  /** `{type: "audio_chunk", data}`, `{type: "end"}` and `{error: message}`. */
  function EncodeReply(r: ClientReply): Json {
    match r
    case AudioChunk(d) => JObj(map["type" := JStr("audio_chunk"), "data" := d])
    case End => JObj(map["type" := JStr("end")])
    case Error(m) => JObj(map["error" := JStr(m)])
  }

  function DecodeReply(j: Json): Option<ClientReply> {
    if !j.JObj? then None
    else if j.fields.Keys == {"type", "data"} && j.fields["type"] == JStr("audio_chunk") then
      Some(AudioChunk(j.fields["data"]))
    else if j.fields.Keys == {"type"} && j.fields["type"] == JStr("end") then Some(End)
    else if j.fields.Keys == {"error"} && j.fields["error"].JStr? then Some(Error(j.fields["error"].s))
    else None
  }

  lemma FrameRoundTrip(f: UpstreamFrame)
    ensures DecodeFrame(EncodeFrame(f)) == Some(f)
  {
    var part := EncodePart(f);
    match f
    case TextTurn(t) =>
      assert part.fields.Keys == (if t.Some? then {"text"} else {});
    case AudioTurn(d) =>
      assert part.fields.Keys == {"inlineData"};
      var inline := part.fields["inlineData"].fields;
      assert "mimeType" !in Defined("data", d);
      assert inline.Keys == (if d.Some? then {"mimeType", "data"} else {"mimeType"});
  }

  lemma PartWireFormatExact(part: Json)
    ensures DecodePart(part).Some? ==> EncodePart(DecodePart(part).value) == part
  {
    if DecodePart(part).Some? && part.fields.Keys == {"inlineData"} {
      var d := part.fields["inlineData"];
      var f := DecodePart(part).value;
      assert d.fields == map["mimeType" := JStr(AudioMimeType)] + Defined("data", f.audioBase64);
    }
  }

  lemma FrameWireFormatExact(j: Json)
    ensures DecodeFrame(j).Some? ==> EncodeFrame(DecodeFrame(j).value) == j
  {
    if DecodeFrame(j).Some? {
      var f := DecodeFrame(j).value;
      var input := j.fields["clientInput"];
      var turns := input.fields["turns"];
      var turn := turns.items[0];
      var parts := turn.fields["parts"];
      var part := parts.items[0];
      PartWireFormatExact(part);
      assert EncodePart(f) == part;
      assert parts == JArr([part]);
      assert turn.fields == map["role" := JStr("user"), "parts" := parts];
      assert turns == JArr([turn]);
      assert input.fields == map["turns" := turns];
      assert j.fields == map["clientInput" := input];
    }
  }

  lemma ReplyRoundTrip(r: ClientReply)
    ensures DecodeReply(EncodeReply(r)) == Some(r)
  {
  }

  lemma ReplyWireFormatExact(j: Json)
    ensures DecodeReply(j).Some? ==> EncodeReply(DecodeReply(j).value) == j
  {
  }

  /** The frames sent upstream for one client message. The handler's two
      independent `if`s are kept; a message whose JSON is `null` makes
      reading `type` throw, which the handler's `catch` only logs. */
  function ClientFrames(p: Parsed): (r: seq<UpstreamFrame>)
    ensures |r| <= 1
    ensures |r| == 1 <==>
      p.Parsed? && p.value.JObj? && "type" in p.value.fields
      && p.value.fields["type"] in {JStr("text"), JStr("audio")}
  {
    match p
    case ParseError => []
    case Parsed(data) =>
      if data.JNull? then []
      else
        var tag := Member(Some(data), "type");
        (if tag == Some(JStr("text")) then [TextTurn(Member(Some(data), "text"))] else [])
        + (if tag == Some(JStr("audio")) then [AudioTurn(Member(Some(data), "audioBase64"))] else [])
  }

  /** A text message becomes one user turn whose only part carries the
      client's `text` property unchanged (absent if the client sent none). */
  lemma TextMessageBecomesTextTurn(data: map<string, Json>)
    requires "type" in data && data["type"] == JStr("text")
    ensures |ClientFrames(Parsed(JObj(data)))| == 1
    ensures EncodeFrame(ClientFrames(Parsed(JObj(data)))[0]) ==
      JObj(map["clientInput" := JObj(map["turns" := JArr([
        JObj(map["role" := JStr("user"), "parts" := JArr([
          JObj(if "text" in data then map["text" := data["text"]] else map[])])])])])])
  {
  }

  /** An audio message becomes one user turn whose only part is inline
      `audio/wav` data holding the client's `audioBase64` value unchanged. */
  lemma AudioMessageBecomesInlineData(data: map<string, Json>)
    requires "type" in data && data["type"] == JStr("audio")
    ensures |ClientFrames(Parsed(JObj(data)))| == 1
    ensures EncodeFrame(ClientFrames(Parsed(JObj(data)))[0]) ==
      JObj(map["clientInput" := JObj(map["turns" := JArr([
        JObj(map["role" := JStr("user"), "parts" := JArr([
          JObj(map["inlineData" := JObj(map["mimeType" := JStr("audio/wav")]
            + (if "audioBase64" in data then map["data" := data["audioBase64"]] else map[]))])])])])])])
  {
  }

  /** What the relay expects of an upstream message it forwards: an object
      whose `serverContent` object has `modalities` listing "AUDIO" (or, as
      String.prototype.includes has it, a string containing "AUDIO"). */
  ghost predicate CarriesAudio(j: Json) {
    && j.JObj? && "serverContent" in j.fields
    && var content := j.fields["serverContent"];
       && content.JObj? && "modalities" in content.fields
       && match content.fields["modalities"]
          case JArr(items) => exists i :: 0 <= i < |items| && items[i] == JStr(AudioModality)
          case JStr(s) => exists k :: OccursAt(AudioModality, s, k)
          case _ => false
  }

  /** The reply to the client for one upstream message. `parsed.serverContent`
      throws when the message is `null`, and `includes` throws when
      `modalities` has no such method; the `catch` only logs, so both send
      nothing. */
  function UpstreamReply(p: Parsed): (r: Option<ClientReply>)
    ensures r.Some? ==> p.Parsed? && p.value.JObj? && "serverContent" in p.value.fields
                        && r.value == AudioChunk(p.value.fields["serverContent"])
    ensures r.Some? ==> r.value.data.JObj? && "modalities" in r.value.data.fields
  {
    match p
    case ParseError => None
    case Parsed(parsed) =>
      if parsed.JNull? then None
      else
        var serverContent := Member(Some(parsed), "serverContent");
        match Includes(Member(serverContent, "modalities"), AudioModality)
        case Throws => None
        case Normal(found) =>
          if found == Some(true) then Some(AudioChunk(serverContent.value)) else None
  }

  /** An upstream message is forwarded exactly when it parses and carries
      the audio modality, and then as `{type: "audio_chunk", data}` with its
      `serverContent` untouched. */
  lemma {:induction false} UpstreamForwardedIffAudio(p: Parsed)
    ensures UpstreamReply(p).Some? <==> p.Parsed? && CarriesAudio(p.value)
    ensures UpstreamReply(p).Some? ==>
      EncodeReply(UpstreamReply(p).value) ==
        JObj(map["type" := JStr("audio_chunk"), "data" := p.value.fields["serverContent"]])
  {
    if p.Parsed? && p.value.JObj? && "serverContent" in p.value.fields {
      var content := p.value.fields["serverContent"];
      if content.JObj? && "modalities" in content.fields {
        match content.fields["modalities"]
        case JStr(s) => IsSubstringSpec(AudioModality, s);
        case JArr(items) =>
          assert JStr(AudioModality) in items <==> exists i :: 0 <= i < |items| && items[i] == JStr(AudioModality);
        case _ =>
      }
    }
  }
}
